=== FILE: README.md ===
# Observation lifecycle and handler dispatch, modelled in Dafny

This project models the observation core of `micrometer-api`. It covers four parts:

- **Handler dispatch** (`handlers.dfy`, module `Handlers`). A handler is a tree. A `Leaf` is a concrete handler with its own `supportsContext` predicate. The two composites are `FirstMatching` and `AllMatching`, each over an ordered child list. `Dispatch(h, ctx)` returns the ids of the concrete handlers, in order, that an event delivered to `h` reaches; `DispatchLeaves` returns the handlers themselves. `Notify` returns the callbacks that actually act. The flags `opensScope` and `closesScope` say whether a leaf overrides `onScopeOpened` and `onScopeClosed`. A leaf that keeps one of these defaults logs nothing for that event.
- **Observation lifecycle** (`observation.dfy`, module `Observations`). These are pure transitions over a `World`. The world holds an injected clock of 64-bit readings and the number of readings taken. It also holds one ordered log of effects (`Notified` callback, `Recorded` timer data point, `SlotSet` thread-local write) and the per-thread slots. `Start` takes the handler snapshot once, and `Error` and `Stop` fan out to that snapshot.
- **Scopes** (`scope.dfy`, module `Scopes`). `MakeCurrent`, `OpenScope` (the `Scope` constructor) and `Close` work on `map<ThreadId, Option<ObsId>>`. A missing key reads as null, as an unset `ThreadLocal` does. `Block` describes properly nested try-with-resources scopes on one thread.
- **Handler context** (`context.dfy`, module `HandlerContext`). It is a `map<K, Option<V>>` with the `HashMap` behaviour of `put/get/remove/getOrDefault/computeIfAbsent/clear`, including stored nulls.

`wrappers.dfy` defines `Option` (a Java nullable reference) and `Result` (normal return or exception).

Inputs the code reaches through the meter registry are parameters:
- `Registry.isEnabled` is the observation config's `isEnabled`.
- `Registry.handlers` is `getObservationHandlers()`.
- The clock is `World.clock`, where reading number `i` is `clock(i)`.
- Timer registration and recording appear as `Recorded(Record(name, duration))` entries in the log.
- `registry.openNewScope(this)` is not shown. It is modelled as constructing a `Scope` over the registry's single `ThreadLocal` on the calling thread.

## Model

| member | source | states |
|---|---|---|
| Handlers.Supports | micrometer-api/src/main/java/io/micrometer/api/instrument/ObservationHandler.java:142-145 | A composite's `supportsContext` (first-matching here, all-matching at lines 206-209) holds iff some child supports the context. A leaf asks its own predicate. |
| Handlers.Dispatch | micrometer-api/src/main/java/io/micrometer/api/instrument/ObservationHandler.java:113-140 | A handler that supports the context passes an event on to at least one concrete handler. A composite supports the context iff an event reaches some concrete handler (all-matching at lines 177-204). Exact targets: FirstMatchingDispatch, AllMatchingDispatch. |
| Handlers.Notify | micrometer-api/src/main/java/io/micrometer/api/instrument/ObservationHandler.java:113-136 | Every callback a delivery produces is about the same observation and carries the delivered event unchanged. NotifyActing states exactly which calls result for every event (all-matching at lines 177-200). |
| Handlers.FirstApplicable | micrometer-api/src/main/java/io/micrometer/api/instrument/ObservationHandler.java:138-140 | The selected child supports the context and every earlier child does not. The result is absent exactly when no child supports it. |
| Handlers.AllApplicable | micrometer-api/src/main/java/io/micrometer/api/instrument/ObservationHandler.java:202-204 | The selected indices are in range and strictly increasing, so each appears once and in list order. An index is selected iff that child supports the context. |
| Handlers.FirstMatchingDispatch | micrometer-api/src/main/java/io/micrometer/api/instrument/ObservationHandler.java:113-140 | With no supporting child, a first-matching composite reaches nothing. Otherwise it reaches exactly what the first supporting child in list order reaches. |
| Handlers.CompositeSupports | micrometer-api/src/main/java/io/micrometer/api/instrument/ObservationHandler.java:142-145 | Each composite's `supportsContext` (first-matching here, all-matching at lines 206-209) holds iff some child supports the context. So the two composites over one child list always agree. |
| Handlers.AllMatchingDispatch | micrometer-api/src/main/java/io/micrometer/api/instrument/ObservationHandler.java:177-204 | Over concrete children, an all-matching composite reaches every supporting child exactly once, in list order, and no non-supporting child. |
| Handlers.UniqueSupporterAgree | micrometer-api/src/main/java/io/micrometer/api/instrument/ObservationHandler.java:138-204 | When exactly one child supports the context, both composites reach exactly what that child reaches. |
| Handlers.AllApplicableSingle | micrometer-api/src/main/java/io/micrometer/api/instrument/ObservationHandler.java:202-204 | When only child `i` supports the context, the filter from position `j` yields `[i]` if `j <= i` and nothing otherwise. |
| Handlers.GetHandlers | micrometer-api/src/main/java/io/micrometer/api/instrument/ObservationHandler.java:147-150 | Rebuilding the composite from the returned list gives back the same composite. The list is the one it was constructed with (lines 109-111, 173-175). |
| Handlers.DefaultScopeCallbacksSilent | micrometer-api/src/main/java/io/micrometer/api/instrument/ObservationHandler.java:54-62 | For a scope event, a handler tree whose concrete handlers all keep that event's default callback produces no effect. The two defaults are independent. |
| Handlers.NotifyFollowsDispatch | micrometer-api/src/main/java/io/micrometer/api/instrument/ObservationHandler.java:113-136 | For start, error and stop (and a scope event when every handler overrides its callback), the callbacks are exactly the dispatch targets, in order, each carrying the event. |
| Handlers.DispatchLeaves | micrometer-api/src/main/java/io/micrometer/api/instrument/ObservationHandler.java:113-204 | The reached handlers are all concrete. A leaf reaches itself, and a composite supports the context iff it reaches some concrete handler. DispatchIds ties it to Dispatch. |
| Handlers.Acting | micrometer-api/src/main/java/io/micrometer/api/instrument/ObservationHandler.java:54-62 | Every kept handler acts on the event and comes from the input, and every input handler that acts is kept. For a scope event these are the handlers that override that callback; ActingAll shows nothing is dropped for start, error and stop. |
| Handlers.ActingAll | micrometer-api/src/main/java/io/micrometer/api/instrument/ObservationHandler.java:54-62 | For start, error and stop no handler is dropped. For a scope event, all handlers are kept when all override it and none when none does. |
| Handlers.DispatchIds | micrometer-api/src/main/java/io/micrometer/api/instrument/ObservationHandler.java:113-204 | The ids of the reached concrete handlers are exactly what Dispatch returns, in order. |
| Handlers.NotifyActing | micrometer-api/src/main/java/io/micrometer/api/instrument/ObservationHandler.java:123-131 | For every event, and for any mix of overriding and default scope callbacks, the calls are one per reached concrete handler that acts on the event, in dispatch order (all-matching at lines 187-195, defaults at 54-62). |
| Handlers.FirstMatchingScopeDefault | micrometer-api/src/main/java/io/micrometer/api/instrument/ObservationHandler.java:123-131 | A first-matching composite delivers a scope event to its first supporting child only. When that child keeps the default callback nothing is called, even if a later supporting child overrides it. |
| Handlers.AllMatchingPair | micrometer-api/src/main/java/io/micrometer/api/instrument/ObservationHandler.java:177-200 | An all-matching composite over two supporting children delivers each event to the first child and then to the second. |
| Handlers.MixedScopeCallbacks | micrometer-api/src/main/java/io/micrometer/api/instrument/ObservationHandler.java:187-190 | With two supporting leaves, of which only the first overrides the scope callbacks, `onScopeOpened` calls only the first leaf while `onStart` calls both, in order. |
| Observations.Wrap64 | micrometer-api/src/main/java/io/micrometer/api/instrument/Observation.java:96 | The `long` difference equals the true difference whenever that fits in 64 bits. It always agrees with the true difference modulo 2^64. |
| Observations.Fanout | micrometer-api/src/main/java/io/micrometer/api/instrument/Observation.java:112-130 | Every callback of a `notify*` fan-out is about this observation and carries the event. FanoutActing gives the exact calls for every event, FanoutLeaves and FanoutLeavesScope over concrete handlers. |
| Observations.Elapsed | micrometer-api/src/main/java/io/micrometer/api/instrument/Observation.java:96 | The duration is `now - startTime` whenever that fits in a `long`. It always agrees with the true difference modulo 2^64. |
| Observations.Start | micrometer-api/src/main/java/io/micrometer/api/instrument/Observation.java:67-84 | If the name is disabled, the result is null and the world is unchanged (no clock read, nothing notified). Otherwise the start time is the next clock reading and the snapshot is the registered handlers at the supporting indices, in order. `onStart` goes to that snapshot. |
| Observations.Error | micrometer-api/src/main/java/io/micrometer/api/instrument/Observation.java:90-92 | The throwable goes to the snapshot: every new effect is an `onError` for this observation carrying that throwable. The clock, its readings and the thread slots are untouched. |
| Observations.Stop | micrometer-api/src/main/java/io/micrometer/api/instrument/Observation.java:94-99 | Exactly one clock reading is taken. The new effects are one record of `now - startTime` (as a `long`) into the timer named after the observation, then the fan-out of `onStop` with that same duration to the kept handlers, in order. Every one of those is an `onStop` for this observation carrying that duration. |
| Observations.StopNotifiesKeptOnce | micrometer-api/src/main/java/io/micrometer/api/instrument/Observation.java:128-130 | With concrete kept handlers, `stop` records the duration once. It then calls `onStop` exactly once on each kept handler, in order, each with that same duration. |
| Observations.FanoutLeaves | micrometer-api/src/main/java/io/micrometer/api/instrument/Observation.java:112-130 | Over concrete handlers, a fan-out of `onStart`, `onError` or `onStop` calls each handler of the snapshot exactly once, in order. It does not consult `supportsContext` again. For the scope callbacks see FanoutLeavesScope. |
| Observations.Reached | micrometer-api/src/main/java/io/micrometer/api/instrument/Observation.java:112-130 | The handlers a fan-out reaches are concrete. Over a snapshot of concrete handlers they are the snapshot itself. |
| Observations.FanoutActing | micrometer-api/src/main/java/io/micrometer/api/instrument/Observation.java:112-130 | For every event, a fan-out calls, in snapshot order and then dispatch order, each reached concrete handler that acts on it. For `onScopeOpened` and `onScopeClosed` these are exactly the handlers overriding that callback. |
| Observations.FanoutLeavesScope | micrometer-api/src/main/java/io/micrometer/api/instrument/Observation.java:120-126 | Over concrete handlers, the scope fan-outs call exactly the handlers overriding that callback, once each, in snapshot order. |
| Observations.StartNew | micrometer-api/src/main/java/io/micrometer/api/instrument/Observation.java:55-57 | The overload without a context starts with a fresh, empty context. A disabled name gives null and an unchanged world. Otherwise the observation keeps the given id and name, its start time is the next clock reading, and exactly that one reading is taken. The snapshot is the handlers supporting the empty context, in registration order, and `onStart` goes to that snapshot. |
| Observations.StartNotifiesKeptOnce | micrometer-api/src/main/java/io/micrometer/api/instrument/Observation.java:79-81 | With concrete registered handlers, `start` calls `onStart` exactly once on each supporting handler, in registration order, and on no other (with `notifyOnSampleStarted`, lines 112-114). |
| Observations.KeptHandlersNotRefiltered | micrometer-api/src/main/java/io/micrometer/api/instrument/Observation.java:79-81 | After the shared context changes, an error still reaches every handler kept at construction, in order. This holds even for one that no longer supports the new context. |
| Observations.CompositeReselectsPerEvent | micrometer-api/src/main/java/io/micrometer/api/instrument/ObservationHandler.java:138-140 | A first-matching composite kept in the snapshot selects afresh on each event. After the shared context changes, an error reaches exactly what the first child supporting the new context reaches. |
| Observations.RepeatedErrorsForwarded | micrometer-api/src/main/java/io/micrometer/api/instrument/Observation.java:116-118 | Two `error` calls forward both throwables, in order, and read no clock. |
| Observations.StartStopElapsed | micrometer-api/src/main/java/io/micrometer/api/instrument/Observation.java:94-99 | With a monotonic clock and less than 2^63 ns elapsed, the recorded duration is the stop reading minus the start reading, and it is non-negative. |
| Observations.SecondStopRecordsAgain | micrometer-api/src/main/java/io/micrometer/api/instrument/Observation.java:94-99 | A second `stop` records a second data point. It is measured from the same start time with the next clock reading, and the first record is kept. |
| Observations.SingleHandlerTiming | micrometer-api/src/main/java/io/micrometer/api/instrument/Observation.java:74-99 | Setup: one handler, a clock at 0 then 150 ms, name "svc.call". Effects in order: `onStart`, then a 150 ms record in timer "svc.call", then `onStop` with 150 ms. |
| Observations.StopAsWritten | micrometer-api/src/main/java/io/micrometer/api/instrument/Observation.java:40 | Calling `stop` on what `start` returned throws exactly when that value is the null no-op. Otherwise it behaves as `Stop`. |
| Observations.DisabledStopThrows | micrometer-api/src/main/java/io/micrometer/api/instrument/Observation.java:67-71 | For a disabled name, `start` followed by `stop` throws `NullPointerException`. |
| Observations.ErrorAsWritten | micrometer-api/src/main/java/io/micrometer/api/instrument/Observation.java:40 | Calling `error` on what `start` returned throws exactly when that value is the null no-op. Otherwise it behaves as `Error`. |
| Observations.DisabledErrorThrows | micrometer-api/src/main/java/io/micrometer/api/instrument/Observation.java:67-71 | For a disabled name, `start` followed by `error` throws `NullPointerException`. |
| Observations.ErrorOrNoOp | micrometer-api/src/main/java/io/micrometer/api/instrument/Observation.java:90-92 | `error` on the no-op value changes nothing. On a started observation it is `Error`. |
| Observations.StopOrNoOp | micrometer-api/src/main/java/io/micrometer/api/instrument/Observation.java:94-99 | `stop` on the no-op value changes nothing. On a started observation it is `Stop`. |
| Observations.DisabledLifecycleIsSilent | micrometer-api/src/main/java/io/micrometer/api/instrument/Observation.java:67-71 | For a disabled name, start, error and stop together leave the world unchanged: no clock read, no handler call, no record. |
| Scopes.OpenScope | micrometer-api/src/main/java/io/micrometer/api/instrument/Observation.java:142-147 | The scope saves the opening thread's slot value as it was. The slot then holds this observation. |
| Scopes.MakeCurrent | micrometer-api/src/main/java/io/micrometer/api/instrument/Observation.java:107-110 | `onScopeOpened` reaches the snapshot before the slot is written. Afterwards the calling thread's current observation is this one, and every other thread's slot and the clock are unchanged. Which handlers are called: MakeCurrentNotifiesOverriding. |
| Scopes.Close | micrometer-api/src/main/java/io/micrometer/api/instrument/Observation.java:154-157 | `onScopeClosed` reaches the snapshot, and then the closing thread's slot gets the saved value, whatever it held. No other thread's slot changes. Which handlers are called: CloseNotifiesOverriding. |
| Scopes.MakeCurrentNotifiesOverriding | micrometer-api/src/main/java/io/micrometer/api/instrument/Observation.java:107-110 | With concrete kept handlers, `makeCurrent` calls `onScopeOpened` once on each kept handler that overrides it, in order, and on no other. Only then is the slot written. |
| Scopes.CloseNotifiesOverriding | micrometer-api/src/main/java/io/micrometer/api/instrument/Observation.java:154-157 | With concrete kept handlers, `close` calls `onScopeClosed` once on each kept handler that overrides it, in order, and on no other. Only then is the slot restored. |
| Scopes.Current | micrometer-api/src/main/java/io/micrometer/api/instrument/Observation.java:145 | The `ThreadLocal.get` the scope reads: a thread that never set its slot reads null, and otherwise it reads what it last set. |
| Scopes.SetSlot | micrometer-api/src/main/java/io/micrometer/api/instrument/Observation.java:146 | `ThreadLocal.set` on thread `t` (also line 156): afterwards `t` reads `v`, no other thread's value changes, and the write is logged. |
| Scopes.NestedScopesRestore | micrometer-api/src/test/java/io/micrometer/api/instrument/CurrentSampleTest.java:90-106 | After any properly nested block of scopes on one thread, every thread's current observation equals its value before the outermost open. The clock is not read. |
| Scopes.NestedBodyRestores | micrometer-api/src/test/java/io/micrometer/api/instrument/CurrentSampleTest.java:90-106 | The same holds for a sequence of such blocks run one after another. |
| Scopes.InnermostIsCurrent | micrometer-api/src/test/java/io/micrometer/api/instrument/CurrentSampleTest.java:95-98 | Inside a block, once its nested blocks have closed, the block's own observation is current again. |
| Scopes.OutOfOrderCloseLeavesStale | micrometer-api/src/main/java/io/micrometer/api/instrument/Observation.java:154-157 | Closing two scopes in the order they were opened leaves the first observation current, not the value before both. |
| Scopes.CloseOnOtherThread | micrometer-api/src/main/java/io/micrometer/api/instrument/Observation.java:154-157 | A scope opened on thread `t` and closed on thread `u` leaves it current on `t`. It writes `t`'s saved value into `u`'s slot. |
| Scopes.CurrentOnlyOnOpeningThread | micrometer-api/src/test/java/io/micrometer/api/instrument/CurrentSampleTest.java:65-88 | An observation made current on thread `b` is current there while the scope is open. Thread `a` never sees it. After close and stop, both threads read what they read before. |
| HandlerContext.Empty | micrometer-api/src/main/java/io/micrometer/api/instrument/Observation.java:168 | A new context holds no key, and every `get` is null. |
| HandlerContext.Get | micrometer-api/src/main/java/io/micrometer/api/instrument/Observation.java:191-193 | `get` returns the value stored under a present key, including a stored null, and null for an absent key. |
| HandlerContext.Put | micrometer-api/src/main/java/io/micrometer/api/instrument/Observation.java:182-185 | Afterwards `get(k)` is the stored value. No other key changes. |
| HandlerContext.Remove | micrometer-api/src/main/java/io/micrometer/api/instrument/Observation.java:187-189 | Afterwards the key is absent and `get(k)` is null. No other key changes. |
| HandlerContext.GetOrDefault | micrometer-api/src/main/java/io/micrometer/api/instrument/Observation.java:195-197 | For a present key the stored value is returned, even a stored null. The default is returned only when the key is absent. |
| HandlerContext.ComputeIfAbsent | micrometer-api/src/main/java/io/micrometer/api/instrument/Observation.java:199-201 | An existing non-null value is returned and nothing changes. Otherwise the mapping function's result is returned, and a null result records no mapping. Either way `get(k)` afterwards equals the returned value, and no other key changes. |
| HandlerContext.Clear | micrometer-api/src/main/java/io/micrometer/api/instrument/Observation.java:203-205 | Afterwards the context is empty and every `get` is null. |
| HandlerContext.PutOverwrites | micrometer-api/src/main/java/io/micrometer/api/instrument/Observation.java:182-185 | A second `put` for the same key replaces the first entirely. |
| HandlerContext.RemoveUndoesPut | micrometer-api/src/main/java/io/micrometer/api/instrument/Observation.java:187-189 | `remove` after `put` equals `remove` alone. If the key was absent before, it gives back the original context. |
| HandlerContext.StoredNullShadowsDefault | micrometer-api/src/main/java/io/micrometer/api/instrument/Observation.java:191-197 | After `put(k, null)`, `getOrDefault` returns null rather than the default. `get` cannot tell it from a removed key. |
| HandlerContext.ComputeIfAbsentSettles | micrometer-api/src/main/java/io/micrometer/api/instrument/Observation.java:199-201 | Once `computeIfAbsent` has stored a value, a later call with any mapping function returns that value and changes nothing. |
| HandlerContext.ComputeIfAbsentThenGetOrDefault | micrometer-api/src/main/java/io/micrometer/api/instrument/Observation.java:195-201 | A non-null value returned by `computeIfAbsent` is what `getOrDefault` returns afterwards. |

## Findings

| source | as written | input that shows it | evidently intended | confidence | as-written member | corrected member |
|---|---|---|---|---|---|---|
| micrometer-api/src/main/java/io/micrometer/api/instrument/Observation.java:40 | `NO_OP` is `null`, so `start` returns null for a disabled name (lines 68-70). | A registry whose `isEnabled(name)` is false; `start(name, registry)` then `stop()` throws `NullPointerException`. | A no-op value that absorbs `error` and `stop`, as the name `NO_OP` suggests. | medium; not executed | Observations.DisabledStopThrows | Observations.DisabledLifecycleIsSilent |

In the model, `Start` returns `None` for a disabled name, as the code does. `StopAsWritten` and `ErrorAsWritten` model the calls on that value, which throw (`DisabledErrorThrows` is the `error` counterpart of the lemma named in the table). `ErrorOrNoOp` and `StopOrNoOp` model the intended no-op.

## Left out

- Timer construction and tags: `Timer.builder(name).tags(getLowCardinalityTags()).register(registry)` is not part of this model. A timer is identified by the observation's name only, and `Record` carries no tags.
- `Duration` and `TimeUnit` conversion: durations stay as `long` nanoseconds. `Duration.ofNanos(d)` passed to `onStop` is the same `d` that is recorded.
- Handler side effects: handlers only log their callbacks. A handler that throws, mutates the context inside a callback, or re-enters the observation is not modelled. This includes `makeCurrent` from `onStart`, where `registry` is still null because the constructor assigns it after notifying. A caller changing the shared context between events is modelled as `o.(context := c)`. A `Scope` holds a copy of the observation taken at `makeCurrent`, whereas the Java `Scope` holds a reference (Observation.java lines 139 and 155). So a context change made while the scope is open must also be applied to the scope, as `s.(current := s.current.(context := c))`, for `Close` to select against the context as it is at close time.
- Aliasing of a composite's child list: the Java constructors keep the caller's `List` without copying it (`ObservationHandler.java` lines 109-111 and 173-175). `getHandlers()` returns that same mutable list (lines 148-150 and 212-214), so changing it later changes where events go. The model's child list is an immutable `seq` fixed at construction.
- The slot map stands for the JDK `ThreadLocal` that `openNewScope` hands to the scope; `Current` and `SetSlot` are its `get` and `set`. `getCurrentSample` is the registry's read of that slot, and the registry itself is not part of this model.
- The context type: `Observations` is generic in the context type `C`. The `HandlerContext` map is tied to it only through `StartNew`, the `start(name, registry)` overload.
- Concurrency: threads are only keys of the slot map. There is no interleaving or memory model.
- Java generics and `Class<?>` keys: the context has one abstract key type `K` and one value type `V`. The one-value-per-type typing of `put`/`get` is not modelled.
- `tags()` is an empty stub, and `getContextualName()` always returns null. Both are left out, as is `Scope.getSample()`, which is the `current` field of `Scope`.
- `makeCurrent` and `tags` on the null no-op value are not modelled. Only `error` and `stop` on it are, both as written (they throw) and as the intended no-op (the Findings row).
- `PrometheusDemo.java` is a demo entry point doing I/O against an external library. It is not part of this model.
- `CurrentSampleTest.java` calls signatures that differ from `Observation.java` (`start(registry)`, `stop(Timer.Builder)`). It is used only as the statement of the scope-nesting and cross-thread properties.

=== FILE: context.dfy ===
/**
  The handler context: a bag of auxiliary data with one slot per key, backed
  by a hash map. Keys stand for the `Class<?>` tokens of the Java code and
  are kept abstract. Like a Java `HashMap`, a key may be present with a null
  value; `None` stands for null, both as a stored value and as a result.
*/
module HandlerContext {
  import opened Wrappers

  type Context<K(==,!new), V> = map<K, Option<V>>

  /** A freshly constructed context holds nothing. */
  function Empty<K(==,!new), V>(): (r: Context<K, V>)
    ensures forall k :: Get(r, k) == None && k !in r
  {
    map[]
  }

  /** `get`: the stored value, or null when the key is absent. A non-null
      result only ever comes from a present key. */
  function Get<K(==,!new), V>(m: Context<K, V>, k: K): (r: Option<V>)
    ensures k !in m ==> r == None
    ensures k in m ==> r == m[k]
    ensures r.Some? ==> k in m && m[k] == r
  {
    if k in m then m[k] else None
  }

  /** `put`: one value per key; a second put for the same key overwrites,
      and no other key changes. */
  function Put<K(==,!new), V>(m: Context<K, V>, k: K, v: Option<V>): (r: Context<K, V>)
    ensures k in r && Get(r, k) == v
    ensures forall k' :: k' != k ==> (k' in r <==> k' in m) && Get(r, k') == Get(m, k')
  {
    m[k := v]
  }

  /** `remove`: afterwards the key is absent; no other key changes. */
  function Remove<K(==,!new), V>(m: Context<K, V>, k: K): (r: Context<K, V>)
    ensures k !in r && Get(r, k) == None
    ensures forall k' :: k' != k ==> (k' in r <==> k' in m) && Get(r, k') == Get(m, k')
  {
    m - {k}
  }

  /** `getOrDefault`: the stored value when the key is present (even a stored
      null), otherwise the default. */
  function GetOrDefault<K(==,!new), V>(m: Context<K, V>, k: K, default: Option<V>): (r: Option<V>)
    ensures k in m ==> r == m[k]
    ensures Get(m, k).Some? ==> r == Get(m, k)
    ensures k !in m ==> r == default
  {
    if k in m then m[k] else default
  }

  /** `computeIfAbsent`: an existing non-null value is kept and returned and
      the mapping function is not consulted; otherwise the function's result
      is returned and stored unless it is null. Either way the returned value
      is what `get` sees afterwards, and no other key changes. */
  function ComputeIfAbsent<K(==,!new), V>(m: Context<K, V>, k: K, f: K -> Option<V>): (r: (Option<V>, Context<K, V>))
    ensures Get(m, k).Some? ==> r.0 == Get(m, k) && r.1 == m
    ensures Get(m, k).None? ==> r.0 == f(k)
    ensures r.0.None? ==> r.1 == m
    ensures Get(r.1, k) == r.0
    ensures forall k' :: k' != k ==> (k' in r.1 <==> k' in m) && Get(r.1, k') == Get(m, k')
  {
    if k in m && m[k].Some? then (m[k], m)
    else
      var v := f(k);
      if v.None? then (None, m) else (v, m[k := v])
  }

  /** `clear`: nothing is left. */
  function Clear<K(==,!new), V>(m: Context<K, V>): (r: Context<K, V>)
    ensures |r| == 0
    ensures forall k :: k !in r && Get(r, k) == None
  {
    map[]
  }

  // ---------------------------------------------------------------------
  // Map laws relating the operations
  // ---------------------------------------------------------------------

  /** A later put for the same key replaces the earlier one entirely. */
  lemma PutOverwrites<K(!new), V>(m: Context<K, V>, k: K, v1: Option<V>, v2: Option<V>)
    ensures Put(Put(m, k, v1), k, v2) == Put(m, k, v2)
  {
  }

  /** Removing a key that was just put restores the previous context when the
      key was absent before, and in every case leaves the key absent. */
  lemma RemoveUndoesPut<K(!new), V>(m: Context<K, V>, k: K, v: Option<V>)
    ensures Remove(Put(m, k, v), k) == Remove(m, k)
    ensures k !in m ==> Remove(Put(m, k, v), k) == m
  {
  }

  /** A stored null is returned by `getOrDefault` instead of the default,
      while `get` cannot tell it from an absent key. */
  lemma StoredNullShadowsDefault<K(!new), V>(m: Context<K, V>, k: K, default: Option<V>)
    ensures GetOrDefault(Put(m, k, None), k, default) == None
    ensures Get(Put(m, k, None), k) == Get(Remove(m, k), k)
  {
  }

  /** A second `computeIfAbsent` after one that stored a value returns that
      same value and changes nothing, whatever mapping function it is given. */
  lemma ComputeIfAbsentSettles<K(!new), V>(m: Context<K, V>, k: K, f: K -> Option<V>, g: K -> Option<V>)
    requires ComputeIfAbsent(m, k, f).0.Some?
    ensures var (v, m1) := ComputeIfAbsent(m, k, f);
      ComputeIfAbsent(m1, k, g) == (v, m1)
  {
  }

  /** After `computeIfAbsent` the key is bound to a value exactly when that
      value is non-null, and `getOrDefault` returns it. */
  lemma ComputeIfAbsentThenGetOrDefault<K(!new), V>(m: Context<K, V>, k: K, f: K -> Option<V>, default: Option<V>)
    ensures var (v, m1) := ComputeIfAbsent(m, k, f);
      v.Some? ==> GetOrDefault(m1, k, default) == v
  {
  }
}

=== FILE: handlers.dfy ===
/**
  Observation handlers and the two composite handlers.

  A handler is a tree: a `Leaf` is a concrete handler with its own
  `supportsContext` predicate, and the two composites hold an ordered list of
  child handlers. A composite re-evaluates its children's `supportsContext`
  on every event, against the context passed with that event, and caches
  nothing.
*/
module Handlers {
  import opened Wrappers

  type HandlerId = nat
  /** Identity of an observation (the `sample` argument of every callback). */
  type ObsId = nat
  /** A reported exception, kept abstract as its description. */
  type Throwable = string

  /** The five lifecycle callbacks, with the data each one receives. */
  datatype Event =
    | OnStart
    | OnError(error: Throwable)
    | OnScopeOpened
    | OnScopeClosed
    | OnStop(timer: string, duration: int)
  {
    /** The two callbacks whose interface default does nothing. */
    predicate IsScopeEvent() {
      OnScopeOpened? || OnScopeClosed?
    }
  }

  /** One callback that a concrete handler acted on. */
  datatype Call = Call(handler: HandlerId, sample: ObsId, event: Event)

  /**
    `Leaf` is a concrete handler: `supports` is its `supportsContext`, and
    `opensScope` and `closesScope` say whether it overrides `onScopeOpened`
    and `onScopeClosed` respectively (when false it keeps that interface
    default, which does nothing).
  */
  datatype Handler<!C> =
    | Leaf(id: HandlerId, supports: C -> bool, opensScope: bool, closesScope: bool)
    | FirstMatching(handlers: seq<Handler<C>>)
    | AllMatching(handlers: seq<Handler<C>>)

  /** `supportsContext`: a leaf asks its own predicate; a first-matching
      composite asks whether a first applicable child exists; an all-matching
      composite asks whether the stream of applicable children is non-empty. */
  function Supports<C>(h: Handler<C>, ctx: C): (r: bool)
    decreases h
    ensures !h.Leaf? ==> (r <==> exists i :: 0 <= i < |h.handlers| && Supports(h.handlers[i], ctx))
  {
    match h
    case Leaf(_, supports, _, _) => supports(ctx)
    case FirstMatching(hs) => FirstApplicable(hs, ctx).Some?
    case AllMatching(hs) =>
      var idx := AllApplicable(hs, ctx);
      assert |idx| > 0 ==> Supports(hs[idx[0]], ctx);
      |idx| > 0
  }

  /** Index of the first child, in list order, that supports `ctx`. */
  function FirstApplicable<C>(hs: seq<Handler<C>>, ctx: C): (r: Option<nat>)
    decreases hs
    ensures r.Some? ==> r.value < |hs| && Supports(hs[r.value], ctx)
    ensures r.Some? ==> forall j :: 0 <= j < r.value ==> !Supports(hs[j], ctx)
    ensures r.None? ==> forall j :: 0 <= j < |hs| ==> !Supports(hs[j], ctx)
  {
    if hs == [] then None
    else if Supports(hs[0], ctx) then Some(0)
    else
      match FirstApplicable(hs[1..], ctx)
      case None => None
      case Some(j) => Some(j + 1)
  }

  /** Indices of all children that support `ctx`, in list order. */
  function AllApplicable<C>(hs: seq<Handler<C>>, ctx: C): (r: seq<nat>)
    decreases hs, 1
    ensures IncreasingIndices(r, |hs|)
    ensures forall j :: 0 <= j < |hs| ==> (Supports(hs[j], ctx) <==> j in r)
  {
    AllApplicableFrom(hs, 0, ctx)
  }

  /** The indices in `r` are in range and strictly increasing, so each index
      appears at most once and in list order. */
  ghost predicate IncreasingIndices(r: seq<nat>, n: nat) {
    && (forall k :: 0 <= k < |r| ==> r[k] < n)
    && (forall k, l :: 0 <= k < l < |r| ==> r[k] < r[l])
  }

  function AllApplicableFrom<C>(hs: seq<Handler<C>>, i: nat, ctx: C): (r: seq<nat>)
    requires i <= |hs|
    decreases hs, 0, |hs| - i
    ensures IncreasingIndices(r, |hs|)
    ensures forall k :: 0 <= k < |r| ==> i <= r[k]
    ensures forall j :: i <= j < |hs| ==> (Supports(hs[j], ctx) <==> j in r)
  {
    if i == |hs| then []
    else if Supports(hs[i], ctx) then [i] + AllApplicableFrom(hs, i + 1, ctx)
    else AllApplicableFrom(hs, i + 1, ctx)
  }

  /** The concrete handlers, in order, that an event delivered to `h` with
      context `ctx` reaches. A leaf always receives what it is given. A
      handler that supports the context passes the event on to some concrete
      handler, and a composite supports the context exactly when it does. */
  function Dispatch<C>(h: Handler<C>, ctx: C): (r: seq<HandlerId>)
    decreases h
    ensures Supports(h, ctx) ==> |r| > 0
    ensures !h.Leaf? ==> (Supports(h, ctx) <==> |r| > 0)
  {
    match h
    case Leaf(id, _, _, _) => [id]
    case FirstMatching(hs) =>
      (match FirstApplicable(hs, ctx)
       case None => []
       case Some(i) => Dispatch(hs[i], ctx))
    case AllMatching(hs) => DispatchEach(hs, AllApplicable(hs, ctx), ctx)
  }

  /** Forward to each selected child in turn (`forEach`). */
  function DispatchEach<C>(hs: seq<Handler<C>>, idx: seq<nat>, ctx: C): (r: seq<HandlerId>)
    requires forall k :: 0 <= k < |idx| ==> idx[k] < |hs|
    decreases hs, |idx|
    ensures idx == [] ==> r == []
    ensures idx != [] ==> |r| >= |Dispatch(hs[idx[0]], ctx)|
  {
    if idx == [] then []
    else Dispatch(hs[idx[0]], ctx) + DispatchEach(hs, idx[1..], ctx)
  }

  /** Whether a concrete handler acts on event `e`: each scope callback is a
      no-op unless the handler overrides that callback. */
  predicate Acts(opensScope: bool, closesScope: bool, e: Event) {
    match e
    case OnScopeOpened => opensScope
    case OnScopeClosed => closesScope
    case _ => true
  }

  /** The calls that delivering event `e` to `h` produces. Each composite
      callback selects its children afresh, exactly as `Dispatch` does. */
  function Notify<C>(h: Handler<C>, sample: ObsId, ctx: C, e: Event): (r: seq<Call>)
    decreases h
    ensures forall c :: c in r ==> c.sample == sample && c.event == e
  {
    match h
    case Leaf(id, _, opensScope, closesScope) =>
      if Acts(opensScope, closesScope, e) then [Call(id, sample, e)] else []
    case FirstMatching(hs) =>
      (match FirstApplicable(hs, ctx)
       case None => []
       case Some(i) => Notify(hs[i], sample, ctx, e))
    case AllMatching(hs) => NotifyEach(hs, AllApplicable(hs, ctx), sample, ctx, e)
  }

  function NotifyEach<C>(hs: seq<Handler<C>>, idx: seq<nat>, sample: ObsId, ctx: C, e: Event): (r: seq<Call>)
    requires forall k :: 0 <= k < |idx| ==> idx[k] < |hs|
    decreases hs, |idx|
    ensures forall c :: c in r ==> c.sample == sample && c.event == e
  {
    if idx == [] then []
    else Notify(hs[idx[0]], sample, ctx, e) + NotifyEach(hs, idx[1..], sample, ctx, e)
  }

  /** `getHandlers`: the list the composite was constructed with. */
  function GetHandlers<C>(h: Handler<C>): (r: seq<Handler<C>>)
    requires h.FirstMatching? || h.AllMatching?
    ensures h.FirstMatching? ==> h == FirstMatching(r)
    ensures h.AllMatching? ==> h == AllMatching(r)
  {
    h.handlers
  }

  /** The calls for delivering `e` to each handler in `ids`, in order. */
  function CallsFor(ids: seq<HandlerId>, sample: ObsId, e: Event): (r: seq<Call>)
    ensures |r| == |ids|
    ensures forall k :: 0 <= k < |r| ==> r[k] == Call(ids[k], sample, e)
  {
    seq(|ids|, k requires 0 <= k < |ids| => Call(ids[k], sample, e))
  }

  /** The ids of a sequence of concrete handlers. */
  function Ids<C>(hs: seq<Handler<C>>): (r: seq<HandlerId>)
    requires forall k :: 0 <= k < |hs| ==> hs[k].Leaf?
    ensures |r| == |hs| && forall k :: 0 <= k < |hs| ==> r[k] == hs[k].id
  {
    seq(|hs|, k requires 0 <= k < |hs| => hs[k].id)
  }

  /** The concrete handlers themselves, in order, that an event delivered to
      `h` with context `ctx` reaches; `Dispatch` is their ids. */
  function DispatchLeaves<C>(h: Handler<C>, ctx: C): (r: seq<Handler<C>>)
    decreases h
    ensures forall k :: 0 <= k < |r| ==> r[k].Leaf?
    ensures h.Leaf? ==> r == [h]
    ensures !h.Leaf? ==> (Supports(h, ctx) <==> |r| > 0)
  {
    match h
    case Leaf(_, _, _, _) => [h]
    case FirstMatching(hs) =>
      (match FirstApplicable(hs, ctx)
       case None => []
       case Some(i) => DispatchLeaves(hs[i], ctx))
    case AllMatching(hs) => DispatchLeavesEach(hs, AllApplicable(hs, ctx), ctx)
  }

  function DispatchLeavesEach<C>(hs: seq<Handler<C>>, idx: seq<nat>, ctx: C): (r: seq<Handler<C>>)
    requires forall k :: 0 <= k < |idx| ==> idx[k] < |hs|
    decreases hs, |idx|
    ensures forall k :: 0 <= k < |r| ==> r[k].Leaf?
    ensures idx == [] ==> r == []
    ensures idx != [] && Supports(hs[idx[0]], ctx) ==> |r| > 0
  {
    if idx == [] then []
    else DispatchLeaves(hs[idx[0]], ctx) + DispatchLeavesEach(hs, idx[1..], ctx)
  }

  /** The concrete handlers of `hs` that act on `e`, in their order in `hs`:
      for a scope event, those that override its callback. */
  function Acting<C>(hs: seq<Handler<C>>, e: Event): (r: seq<Handler<C>>)
    requires forall k :: 0 <= k < |hs| ==> hs[k].Leaf?
    ensures |r| <= |hs|
    ensures forall k :: 0 <= k < |r| ==> r[k].Leaf? && Acts(r[k].opensScope, r[k].closesScope, e) && r[k] in hs
    ensures forall k :: 0 <= k < |hs| && Acts(hs[k].opensScope, hs[k].closesScope, e) ==> hs[k] in r
  {
    if hs == [] then []
    else
      var rest := Acting(hs[1..], e);
      assert forall k :: 1 <= k < |hs| ==> hs[k] == hs[1..][k - 1];
      if Acts(hs[0].opensScope, hs[0].closesScope, e) then [hs[0]] + rest else rest
  }

  /** Either every leaf of `h` acts on `e` (`acts`) or none does. */
  predicate AllLeavesAct<C>(h: Handler<C>, e: Event, acts: bool)
    decreases h
  {
    match h
    case Leaf(_, _, opensScope, closesScope) => Acts(opensScope, closesScope, e) == acts
    case FirstMatching(hs) => forall i :: 0 <= i < |hs| ==> AllLeavesAct(hs[i], e, acts)
    case AllMatching(hs) => forall i :: 0 <= i < |hs| ==> AllLeavesAct(hs[i], e, acts)
  }

  // ---------------------------------------------------------------------
  // Properties of the composites
  // ---------------------------------------------------------------------

  /** A first-matching composite forwards to exactly the first supporting
      child, and to nothing when no child supports the context. */
  lemma FirstMatchingDispatch<C>(hs: seq<Handler<C>>, ctx: C)
    ensures (forall j :: 0 <= j < |hs| ==> !Supports(hs[j], ctx)) ==>
              Dispatch(FirstMatching(hs), ctx) == []
    ensures forall i :: 0 <= i < |hs| && Supports(hs[i], ctx) &&
                        (forall j :: 0 <= j < i ==> !Supports(hs[j], ctx)) ==>
              Dispatch(FirstMatching(hs), ctx) == Dispatch(hs[i], ctx)
  {
    var r := FirstApplicable(hs, ctx);
    forall i | 0 <= i < |hs| && Supports(hs[i], ctx) && (forall j :: 0 <= j < i ==> !Supports(hs[j], ctx))
      ensures Dispatch(FirstMatching(hs), ctx) == Dispatch(hs[i], ctx)
    {
      assert r.Some?;
      assert r.value == i;
    }
  }

  /** Both composites support a context exactly when some child does, so
      they agree with each other on `supportsContext`. */
  lemma CompositeSupports<C>(hs: seq<Handler<C>>, ctx: C)
    ensures Supports(FirstMatching(hs), ctx) <==> exists i :: 0 <= i < |hs| && Supports(hs[i], ctx)
    ensures Supports(AllMatching(hs), ctx) <==> exists i :: 0 <= i < |hs| && Supports(hs[i], ctx)
    ensures Supports(FirstMatching(hs), ctx) == Supports(AllMatching(hs), ctx)
  {
  }

  /** Delivering to the children at `idx` when each of them is a leaf reaches
      exactly those leaves, in the order of `idx`. */
  lemma {:induction false} DispatchEachLeaves<C>(hs: seq<Handler<C>>, idx: seq<nat>, ctx: C)
    requires forall k :: 0 <= k < |idx| ==> idx[k] < |hs|
    requires forall j :: 0 <= j < |hs| ==> hs[j].Leaf?
    ensures |DispatchEach(hs, idx, ctx)| == |idx|
    ensures forall k :: 0 <= k < |idx| ==> DispatchEach(hs, idx, ctx)[k] == hs[idx[k]].id
    decreases |idx|
  {
    if idx != [] {
      DispatchEachLeaves(hs, idx[1..], ctx);
    }
  }

  /** An all-matching composite over concrete handlers reaches every
      supporting child exactly once, in list order, and no other child. */
  lemma AllMatchingDispatch<C>(hs: seq<Handler<C>>, ctx: C)
    requires forall j :: 0 <= j < |hs| ==> hs[j].Leaf?
    ensures var idx := AllApplicable(hs, ctx);
      && IncreasingIndices(idx, |hs|)
      && (forall j :: 0 <= j < |hs| ==> (Supports(hs[j], ctx) <==> j in idx))
      && |Dispatch(AllMatching(hs), ctx)| == |idx|
      && (forall k :: 0 <= k < |idx| ==> Dispatch(AllMatching(hs), ctx)[k] == hs[idx[k]].id)
  {
    DispatchEachLeaves(hs, AllApplicable(hs, ctx), ctx);
  }

  /** When exactly one child supports the context, both composites forward
      to that same child. */
  lemma UniqueSupporterAgree<C>(hs: seq<Handler<C>>, ctx: C, i: nat)
    requires i < |hs| && Supports(hs[i], ctx)
    requires forall j :: 0 <= j < |hs| && j != i ==> !Supports(hs[j], ctx)
    ensures Dispatch(FirstMatching(hs), ctx) == Dispatch(hs[i], ctx)
    ensures Dispatch(AllMatching(hs), ctx) == Dispatch(hs[i], ctx)
  {
  }

  lemma {:induction false} AllApplicableSingle<C>(hs: seq<Handler<C>>, ctx: C, i: nat, j: nat)
    requires i < |hs| && Supports(hs[i], ctx)
    requires forall k :: 0 <= k < |hs| && k != i ==> !Supports(hs[k], ctx)
    requires j <= |hs|
    ensures AllApplicableFrom(hs, j, ctx) == if j <= i then [i] else []
    decreases |hs| - j
  {
    if j < |hs| {
      AllApplicableSingle(hs, ctx, i, j + 1);
    }
  }

  // ---------------------------------------------------------------------
  // Callbacks follow the dispatch
  // ---------------------------------------------------------------------

  /** For start, error and stop every reached handler acts, so the calls are
      exactly the dispatch targets, in order, each carrying the event. */
  lemma {:induction false} NotifyFollowsDispatch<C>(h: Handler<C>, sample: ObsId, ctx: C, e: Event)
    requires !e.IsScopeEvent() || AllLeavesAct(h, e, true)
    ensures Notify(h, sample, ctx, e) == CallsFor(Dispatch(h, ctx), sample, e)
    decreases h, 1
  {
    match h
    case Leaf(_, _, _, _) =>
    case FirstMatching(hs) =>
      match FirstApplicable(hs, ctx) {
        case None =>
        case Some(i) => NotifyFollowsDispatch(hs[i], sample, ctx, e);
      }
    case AllMatching(hs) =>
      NotifyEachFollowsDispatch(hs, AllApplicable(hs, ctx), sample, ctx, e);
  }

  lemma {:induction false} NotifyEachFollowsDispatch<C>(hs: seq<Handler<C>>, idx: seq<nat>, sample: ObsId, ctx: C, e: Event)
    requires forall k :: 0 <= k < |idx| ==> idx[k] < |hs|
    requires !e.IsScopeEvent() || forall j :: 0 <= j < |hs| ==> AllLeavesAct(hs[j], e, true)
    ensures NotifyEach(hs, idx, sample, ctx, e) == CallsFor(DispatchEach(hs, idx, ctx), sample, e)
    decreases hs, 0, |idx|
  {
    if idx != [] {
      NotifyFollowsDispatch(hs[idx[0]], sample, ctx, e);
      NotifyEachFollowsDispatch(hs, idx[1..], sample, ctx, e);
      CallsForAppend(Dispatch(hs[idx[0]], ctx), DispatchEach(hs, idx[1..], ctx), sample, e);
    }
  }

  lemma CallsForAppend(a: seq<HandlerId>, b: seq<HandlerId>, sample: ObsId, e: Event)
    ensures CallsFor(a + b, sample, e) == CallsFor(a, sample, e) + CallsFor(b, sample, e)
  {
  }

  /** Handlers that keep the default callback for a scope event record
      nothing for it, whatever the composites select. */
  lemma {:induction false} DefaultScopeCallbacksSilent<C>(h: Handler<C>, sample: ObsId, ctx: C, e: Event)
    requires e.IsScopeEvent() && AllLeavesAct(h, e, false)
    ensures Notify(h, sample, ctx, e) == []
    decreases h, 1
  {
    match h
    case Leaf(_, _, _, _) =>
    case FirstMatching(hs) =>
      match FirstApplicable(hs, ctx) {
        case None =>
        case Some(i) => DefaultScopeCallbacksSilent(hs[i], sample, ctx, e);
      }
    case AllMatching(hs) =>
      NotifyEachSilent(hs, AllApplicable(hs, ctx), sample, ctx, e);
  }

  lemma {:induction false} NotifyEachSilent<C>(hs: seq<Handler<C>>, idx: seq<nat>, sample: ObsId, ctx: C, e: Event)
    requires forall k :: 0 <= k < |idx| ==> idx[k] < |hs|
    requires e.IsScopeEvent() && forall j :: 0 <= j < |hs| ==> AllLeavesAct(hs[j], e, false)
    ensures NotifyEach(hs, idx, sample, ctx, e) == []
    decreases hs, 0, |idx|
  {
    if idx != [] {
      DefaultScopeCallbacksSilent(hs[idx[0]], sample, ctx, e);
      NotifyEachSilent(hs, idx[1..], sample, ctx, e);
    }
  }

  // ---------------------------------------------------------------------
  // Callbacks for every event, including mixed scope overrides
  // ---------------------------------------------------------------------

  lemma IdsAppend<C>(a: seq<Handler<C>>, b: seq<Handler<C>>)
    requires forall k :: 0 <= k < |a| ==> a[k].Leaf?
    requires forall k :: 0 <= k < |b| ==> b[k].Leaf?
    ensures Ids(a + b) == Ids(a) + Ids(b)
  {
  }

  lemma {:induction false} ActingAppend<C>(a: seq<Handler<C>>, b: seq<Handler<C>>, e: Event)
    requires forall k :: 0 <= k < |a| ==> a[k].Leaf?
    requires forall k :: 0 <= k < |b| ==> b[k].Leaf?
    ensures Acting(a + b, e) == Acting(a, e) + Acting(b, e)
    decreases |a|
  {
    if a == [] {
      assert a + b == b;
    } else {
      assert (a + b)[0] == a[0];
      assert (a + b)[1..] == a[1..] + b;
      ActingAppend(a[1..], b, e);
    }
  }

  /** When every handler of `hs` acts on `e` (always so for start, error and
      stop) none is dropped; when none acts, all are. */
  lemma {:induction false} ActingAll<C>(hs: seq<Handler<C>>, e: Event)
    requires forall k :: 0 <= k < |hs| ==> hs[k].Leaf?
    ensures (forall k :: 0 <= k < |hs| ==> Acts(hs[k].opensScope, hs[k].closesScope, e)) ==> Acting(hs, e) == hs
    ensures (forall k :: 0 <= k < |hs| ==> !Acts(hs[k].opensScope, hs[k].closesScope, e)) ==> Acting(hs, e) == []
    ensures !e.IsScopeEvent() ==> Acting(hs, e) == hs
    decreases |hs|
  {
    if hs != [] {
      ActingAll(hs[1..], e);
    }
  }

  /** `Dispatch` is the ids of the reached concrete handlers. */
  lemma {:induction false} DispatchIds<C>(h: Handler<C>, ctx: C)
    ensures Dispatch(h, ctx) == Ids(DispatchLeaves(h, ctx))
    decreases h, 1
  {
    match h
    case Leaf(_, _, _, _) =>
    case FirstMatching(hs) =>
      match FirstApplicable(hs, ctx) {
        case None =>
        case Some(i) => DispatchIds(hs[i], ctx);
      }
    case AllMatching(hs) =>
      DispatchEachIds(hs, AllApplicable(hs, ctx), ctx);
  }

  lemma {:induction false} DispatchEachIds<C>(hs: seq<Handler<C>>, idx: seq<nat>, ctx: C)
    requires forall k :: 0 <= k < |idx| ==> idx[k] < |hs|
    ensures DispatchEach(hs, idx, ctx) == Ids(DispatchLeavesEach(hs, idx, ctx))
    decreases hs, 0, |idx|
  {
    if idx != [] {
      DispatchIds(hs[idx[0]], ctx);
      DispatchEachIds(hs, idx[1..], ctx);
      IdsAppend(DispatchLeaves(hs[idx[0]], ctx), DispatchLeavesEach(hs, idx[1..], ctx));
    }
  }

  /** For every event, the calls a delivery produces are, in dispatch order,
      one per reached concrete handler that acts on the event: for a scope
      event, those that override its callback, whatever their siblings do. */
  lemma {:induction false} NotifyActing<C>(h: Handler<C>, sample: ObsId, ctx: C, e: Event)
    ensures Notify(h, sample, ctx, e) == CallsFor(Ids(Acting(DispatchLeaves(h, ctx), e)), sample, e)
    decreases h, 1
  {
    match h
    case Leaf(_, _, _, _) =>
    case FirstMatching(hs) =>
      match FirstApplicable(hs, ctx) {
        case None =>
        case Some(i) => NotifyActing(hs[i], sample, ctx, e);
      }
    case AllMatching(hs) =>
      NotifyEachActing(hs, AllApplicable(hs, ctx), sample, ctx, e);
  }

  lemma {:induction false} NotifyEachActing<C>(hs: seq<Handler<C>>, idx: seq<nat>, sample: ObsId, ctx: C, e: Event)
    requires forall k :: 0 <= k < |idx| ==> idx[k] < |hs|
    ensures NotifyEach(hs, idx, sample, ctx, e) == CallsFor(Ids(Acting(DispatchLeavesEach(hs, idx, ctx), e)), sample, e)
    decreases hs, 0, |idx|
  {
    if idx != [] {
      var a := DispatchLeaves(hs[idx[0]], ctx);
      var b := DispatchLeavesEach(hs, idx[1..], ctx);
      NotifyActing(hs[idx[0]], sample, ctx, e);
      NotifyEachActing(hs, idx[1..], sample, ctx, e);
      ActingAppend(a, b, e);
      IdsAppend(Acting(a, e), Acting(b, e));
      CallsForAppend(Ids(Acting(a, e)), Ids(Acting(b, e)), sample, e);
    }
  }

  /** A first-matching composite hands a scope event to its first supporting
      child only: when that child keeps the default callback nothing is
      called, even if a later supporting child overrides it. */
  lemma FirstMatchingScopeDefault<C>(hs: seq<Handler<C>>, sample: ObsId, ctx: C, e: Event, i: nat)
    requires i < |hs| && Supports(hs[i], ctx)
    requires forall j :: 0 <= j < i ==> !Supports(hs[j], ctx)
    requires hs[i].Leaf? && !Acts(hs[i].opensScope, hs[i].closesScope, e)
    ensures Notify(FirstMatching(hs), sample, ctx, e) == []
  {
    assert FirstApplicable(hs, ctx) == Some(i);
  }

  /** An all-matching composite over two supporting children delivers to
      the first, then to the second. */
  lemma {:induction false} AllMatchingPair<C>(h1: Handler<C>, h2: Handler<C>, sample: ObsId, ctx: C, e: Event)
    requires Supports(h1, ctx) && Supports(h2, ctx)
    ensures Notify(AllMatching([h1, h2]), sample, ctx, e) == Notify(h1, sample, ctx, e) + Notify(h2, sample, ctx, e)
  {
    var hs := [h1, h2];
    assert AllApplicableFrom(hs, 2, ctx) == [];
    assert AllApplicableFrom(hs, 1, ctx) == [1];
    assert AllApplicable(hs, ctx) == [0, 1];
    assert [0, 1][1..] == [1];
    assert NotifyEach(hs, [1], sample, ctx, e) == Notify(h2, sample, ctx, e) + [];
  }

  /** An all-matching composite whose two leaves both support the context
      but differ on `onScopeOpened`: only the one that overrides it is called
      for that event, while both receive `onStart`. */
  lemma MixedScopeCallbacks<C>(s1: C -> bool, s2: C -> bool, ctx: C, sample: ObsId)
    requires s1(ctx) && s2(ctx)
    ensures var both := AllMatching([Leaf(1, s1, true, true), Leaf(2, s2, false, false)]);
      && Notify(both, sample, ctx, OnScopeOpened) == [Call(1, sample, OnScopeOpened)]
      && Notify(both, sample, ctx, OnStart) == [Call(1, sample, OnStart), Call(2, sample, OnStart)]
  {
    AllMatchingPair(Leaf(1, s1, true, true), Leaf(2, s2, false, false), sample, ctx, OnScopeOpened);
    AllMatchingPair(Leaf(1, s1, true, true), Leaf(2, s2, false, false), sample, ctx, OnStart);
  }
}

=== FILE: observation.dfy ===
/**
  The observation lifecycle: `start`, `error` and `stop`, with the handler
  snapshot taken once at construction.

  Everything the Java code reaches through the meter registry is an input:
  the enablement predicate and the registered handlers form a `Registry`,
  and the monotonic clock is a sequence of 64-bit readings in the `World`,
  which also holds the ordered log of effects (handler callbacks, timer
  recordings and writes to the per-thread current-observation slot).
*/
module Observations {
  import opened Wrappers
  import opened Handlers
  import HandlerContext

  const TWO_63: int := 0x8000_0000_0000_0000
  const TWO_64: int := 0x1_0000_0000_0000_0000

  /** A Java `long`. */
  type Int64 = x: int | -TWO_63 <= x < TWO_63

  /** Java `long` subtraction wraps around; `Wrap64` maps the mathematical
      result to the `long` the JVM computes. */
  function Wrap64(x: int): (r: Int64)
    ensures -TWO_63 <= x < TWO_63 ==> r == x
    ensures (r - x) % TWO_64 == 0
  {
    ((x + TWO_63) % TWO_64) - TWO_63
  }

  type ThreadId = nat

  /** The thread-local current observation: one slot per thread; a thread
      that never set its slot reads null. */
  type Slots = map<ThreadId, Option<ObsId>>

  /** One data point recorded into the timer named `timer`, in nanoseconds. */
  datatype Record = Record(timer: string, duration: Int64)

  /** One observable effect, in the order it happened. */
  datatype Effect =
    | Notified(call: Call)
    | Recorded(record: Record)
    | SlotSet(thread: ThreadId, value: Option<ObsId>)

  /** Process state: the clock (reading number `i` returns `clock(i)`), how
      many readings were taken, the effect log, and the per-thread slots. */
  datatype World = World(clock: nat -> Int64, taken: nat, log: seq<Effect>, slots: Slots)

  /** The registry as the observation sees it: `isEnabled` of its
      observation config and the registered handlers, in registration order. */
  datatype Registry<!C> = Registry(isEnabled: string -> bool, handlers: seq<Handler<C>>)

  /** A started observation. All fields are fixed at construction. */
  datatype Observation<!C> = Observation(
    id: ObsId,
    name: string,
    startTime: Int64,
    context: C,
    handlers: seq<Handler<C>>)

  /** The elements of `hs` at the positions `idx`, in the order of `idx`. */
  function Select<T>(hs: seq<T>, idx: seq<nat>): (r: seq<T>)
    requires forall k :: 0 <= k < |idx| ==> idx[k] < |hs|
    ensures |r| == |idx|
    ensures forall k :: 0 <= k < |idx| ==> r[k] == hs[idx[k]]
  {
    seq(|idx|, k requires 0 <= k < |idx| => hs[idx[k]])
  }

  /** Log entries for a sequence of handler callbacks. */
  function Announce(calls: seq<Call>): (r: seq<Effect>)
    ensures |r| == |calls|
    ensures forall k :: 0 <= k < |r| ==> r[k] == Notified(calls[k])
  {
    seq(|calls|, k requires 0 <= k < |calls| => Notified(calls[k]))
  }

  /** The `notify*` helpers: deliver `e` to each kept handler in order.
      Every resulting call is about `sample` and carries `e`. */
  function Fanout<C>(hs: seq<Handler<C>>, sample: ObsId, ctx: C, e: Event): (r: seq<Call>)
    ensures forall c :: c in r ==> c.sample == sample && c.event == e
  {
    if hs == [] then []
    else Notify(hs[0], sample, ctx, e) + Fanout(hs[1..], sample, ctx, e)
  }

  /** `Observation.start`: when the name is disabled the result is the no-op
      value (null), and nothing else happens. Otherwise the clock is read
      once, the registered handlers are filtered by `supportsContext` into a
      fixed snapshot that keeps registration order, and `onStart` is
      delivered to that snapshot. */
  function Start<C>(w: World, id: ObsId, name: string, reg: Registry<C>, ctx: C): (r: (Option<Observation<C>>, World))
    ensures !reg.isEnabled(name) ==> r.0 == None && r.1 == w
    ensures reg.isEnabled(name) ==> r.0.Some?
    ensures reg.isEnabled(name) ==>
      var o := r.0.value;
      var idx := AllApplicable(reg.handlers, ctx);
      && o.id == id && o.name == name && o.context == ctx
      && o.startTime == w.clock(w.taken)
      && |o.handlers| == |idx|
      && (forall k :: 0 <= k < |idx| ==> o.handlers[k] == reg.handlers[idx[k]])
      && r.1 == w.(taken := w.taken + 1, log := w.log + Announce(Fanout(o.handlers, id, ctx, OnStart)))
  {
    if !reg.isEnabled(name) then (None, w)
    else
      var startTime := w.clock(w.taken);
      var kept := Select(reg.handlers, AllApplicable(reg.handlers, ctx));
      var o := Observation(id, name, startTime, ctx, kept);
      (Some(o), w.(taken := w.taken + 1, log := w.log + Announce(Fanout(kept, id, ctx, OnStart))))
  }

  /** The overload `start(name, registry)`: `start` with a fresh, empty
      handler context, against which the registered handlers are filtered. */
  function StartNew<K(==,!new), V>(w: World, id: ObsId, name: string, reg: Registry<HandlerContext.Context<K, V>>)
    : (r: (Option<Observation<HandlerContext.Context<K, V>>>, World))
    ensures !reg.isEnabled(name) ==> r.0 == None && r.1 == w
    ensures reg.isEnabled(name) ==>
      && r.0.Some?
      && (forall k :: HandlerContext.Get(r.0.value.context, k) == None)
      && var idx := AllApplicable(reg.handlers, map[]);
        && |r.0.value.handlers| == |idx|
        && (forall k :: 0 <= k < |idx| ==> r.0.value.handlers[k] == reg.handlers[idx[k]])
    ensures reg.isEnabled(name) ==>
      && r.0.Some?
      && r.0.value.id == id && r.0.value.name == name
      && r.0.value.startTime == w.clock(w.taken)
      && r.1 == w.(taken := w.taken + 1,
                   log := w.log + Announce(Fanout(r.0.value.handlers, id, r.0.value.context, OnStart)))
  {
    Start(w, id, name, reg, HandlerContext.Empty())
  }

  /** `error(t)`: `t` goes to every kept handler; no clock reading, no
      recording, and the observation itself is untouched. */
  function Error<C>(w: World, o: Observation<C>, t: Throwable): (r: World)
    ensures r.clock == w.clock && r.taken == w.taken && r.slots == w.slots
    ensures r.log == w.log + Announce(Fanout(o.handlers, o.id, o.context, OnError(t)))
    ensures forall k :: |w.log| <= k < |r.log| ==>
      r.log[k].Notified? && r.log[k].call.sample == o.id && r.log[k].call.event == OnError(t)
  {
    var calls := Fanout(o.handlers, o.id, o.context, OnError(t));
    var r := w.(log := w.log + Announce(calls));
    assert forall k :: |w.log| <= k < |r.log| ==> r.log[k] == Notified(calls[k - |w.log|]);
    r
  }

  /** The duration `stop` computes when the clock reads `now`. */
  function Elapsed<C>(o: Observation<C>, now: Int64): (r: Int64)
    ensures -TWO_63 <= now - o.startTime < TWO_63 ==> r == now - o.startTime
    ensures (r - (now - o.startTime)) % TWO_64 == 0
  {
    Wrap64(now - o.startTime)
  }

  /** `stop`: read the clock once, record `now - startTime` into the timer
      named after the observation, then hand the same duration to every kept
      handler's `onStop`. Nothing prevents a second `stop`. */
  function Stop<C>(w: World, o: Observation<C>): (r: World)
    ensures r.clock == w.clock && r.taken == w.taken + 1 && r.slots == w.slots
    ensures |r.log| > |w.log| && r.log[..|w.log|] == w.log
    ensures r.log[|w.log|] == Recorded(Record(o.name, Elapsed(o, w.clock(w.taken))))
    ensures forall k :: |w.log| < k < |r.log| ==>
      r.log[k].Notified? && r.log[k].call.sample == o.id &&
      r.log[k].call.event == OnStop(o.name, Elapsed(o, w.clock(w.taken)))
    ensures var d := Elapsed(o, w.clock(w.taken));
      r.log == w.log + [Recorded(Record(o.name, d))] + Announce(Fanout(o.handlers, o.id, o.context, OnStop(o.name, d)))
  {
    var d := Elapsed(o, w.clock(w.taken));
    var calls := Fanout(o.handlers, o.id, o.context, OnStop(o.name, d));
    var r := w.(taken := w.taken + 1, log := w.log + [Recorded(Record(o.name, d))] + Announce(calls));
    assert forall k :: |w.log| < k < |r.log| ==> r.log[k] == Notified(calls[k - |w.log| - 1]);
    r
  }

  // ---------------------------------------------------------------------
  // Fan-out to the snapshot
  // ---------------------------------------------------------------------

  /** Over concrete handlers, a fan-out of start, error or stop calls every
      handler exactly once, in order, whatever the context now says: the
      snapshot is not filtered again. */
  lemma {:induction false} FanoutLeaves<C>(hs: seq<Handler<C>>, sample: ObsId, ctx: C, e: Event)
    requires forall k :: 0 <= k < |hs| ==> hs[k].Leaf?
    requires !e.IsScopeEvent()
    ensures Fanout(hs, sample, ctx, e) == CallsFor(Ids(hs), sample, e)
  {
    if hs != [] {
      FanoutLeaves(hs[1..], sample, ctx, e);
      assert Ids(hs) == [hs[0].id] + Ids(hs[1..]);
      CallsForAppend([hs[0].id], Ids(hs[1..]), sample, e);
    }
  }

  /** The concrete handlers a fan-out over `hs` reaches, in order. */
  function Reached<C>(hs: seq<Handler<C>>, ctx: C): (r: seq<Handler<C>>)
    ensures forall k :: 0 <= k < |r| ==> r[k].Leaf?
    ensures (forall k :: 0 <= k < |hs| ==> hs[k].Leaf?) ==> r == hs
  {
    if hs == [] then []
    else
      var rest := Reached(hs[1..], ctx);
      assert (forall k :: 0 <= k < |hs| ==> hs[k].Leaf?) ==> [hs[0]] + hs[1..] == hs;
      DispatchLeaves(hs[0], ctx) + rest
  }

  /** For every event, a fan-out calls, in order, each reached concrete
      handler that acts on the event; for `onScopeOpened` and
      `onScopeClosed` these are the handlers overriding that callback. */
  lemma {:induction false} FanoutActing<C>(hs: seq<Handler<C>>, sample: ObsId, ctx: C, e: Event)
    ensures Fanout(hs, sample, ctx, e) == CallsFor(Ids(Acting(Reached(hs, ctx), e)), sample, e)
  {
    if hs != [] {
      var a := DispatchLeaves(hs[0], ctx);
      var b := Reached(hs[1..], ctx);
      NotifyActing(hs[0], sample, ctx, e);
      FanoutActing(hs[1..], sample, ctx, e);
      ActingAppend(a, b, e);
      IdsAppend(Acting(a, e), Acting(b, e));
      CallsForAppend(Ids(Acting(a, e)), Ids(Acting(b, e)), sample, e);
    }
  }

  /** Over concrete handlers, a fan-out of a scope event calls exactly the
      handlers that override that callback, once each, in order. */
  lemma FanoutLeavesScope<C>(hs: seq<Handler<C>>, sample: ObsId, ctx: C, e: Event)
    requires forall k :: 0 <= k < |hs| ==> hs[k].Leaf?
    ensures Fanout(hs, sample, ctx, e) == CallsFor(Ids(Acting(hs, e)), sample, e)
  {
    FanoutActing(hs, sample, ctx, e);
  }

  /** With concrete registered handlers, `start` calls `onStart` exactly once
      on each registered handler that supports the context, in registration
      order, and on no other. */
  lemma StartNotifiesKeptOnce<C>(w: World, id: ObsId, name: string, reg: Registry<C>, ctx: C)
    requires reg.isEnabled(name)
    requires forall k :: 0 <= k < |reg.handlers| ==> reg.handlers[k].Leaf?
    ensures var (o, w') := Start(w, id, name, reg, ctx);
      var idx := AllApplicable(reg.handlers, ctx);
      && IncreasingIndices(idx, |reg.handlers|)
      && (forall j :: 0 <= j < |reg.handlers| ==> (reg.handlers[j].supports(ctx) <==> j in idx))
      && w'.log == w.log + Announce(CallsFor(Ids(Select(reg.handlers, idx)), id, OnStart))
  {
    var idx := AllApplicable(reg.handlers, ctx);
    var kept := Select(reg.handlers, idx);
    FanoutLeaves(kept, id, ctx, OnStart);
  }

  /** With concrete kept handlers, `stop` records the duration once and then
      calls `onStop` exactly once on each kept handler, in order, each with
      that same duration. */
  lemma StopNotifiesKeptOnce<C>(w: World, o: Observation<C>)
    requires forall k :: 0 <= k < |o.handlers| ==> o.handlers[k].Leaf?
    ensures var d := Elapsed(o, w.clock(w.taken));
      Stop(w, o).log == w.log + [Recorded(Record(o.name, d))]
                              + Announce(CallsFor(Ids(o.handlers), o.id, OnStop(o.name, d)))
  {
    FanoutLeaves(o.handlers, o.id, o.context, OnStop(o.name, Elapsed(o, w.clock(w.taken))));
  }

  /** The snapshot is never re-filtered: after the shared context changes,
      an error still reaches every kept concrete handler, in order, even one
      that no longer supports the new context. */
  lemma KeptHandlersNotRefiltered<C>(w: World, o: Observation<C>, newContext: C, t: Throwable)
    requires forall k :: 0 <= k < |o.handlers| ==> o.handlers[k].Leaf?
    ensures Error(w, o.(context := newContext), t).log ==
      w.log + Announce(CallsFor(Ids(o.handlers), o.id, OnError(t)))
  {
    FanoutLeaves(o.handlers, o.id, newContext, OnError(t));
  }

  /** A composite in the snapshot is kept as a whole, but it picks its child
      afresh for every event: after the shared context changes, an error
      reaches exactly what the first child supporting the new context reaches. */
  lemma CompositeReselectsPerEvent<C>(w: World, o: Observation<C>, hs: seq<Handler<C>>, newContext: C, t: Throwable, i: nat)
    requires o.handlers == [FirstMatching(hs)]
    requires i < |hs| && Supports(hs[i], newContext)
    requires forall j :: 0 <= j < i ==> !Supports(hs[j], newContext)
    ensures Error(w, o.(context := newContext), t).log ==
      w.log + Announce(CallsFor(Dispatch(hs[i], newContext), o.id, OnError(t)))
  {
    assert Fanout(o.handlers, o.id, newContext, OnError(t)) == Notify(FirstMatching(hs), o.id, newContext, OnError(t));
    NotifyFollowsDispatch(FirstMatching(hs), o.id, newContext, OnError(t));
    FirstMatchingDispatch(hs, newContext);
  }

  /** Each `error` call is forwarded on its own: two calls log the fan-out
      twice, and neither reads the clock. */
  lemma RepeatedErrorsForwarded<C>(w: World, o: Observation<C>, t1: Throwable, t2: Throwable)
    ensures var w2 := Error(Error(w, o, t1), o, t2);
      && w2.taken == w.taken
      && w2.log == w.log + Announce(Fanout(o.handlers, o.id, o.context, OnError(t1)))
                         + Announce(Fanout(o.handlers, o.id, o.context, OnError(t2)))
  {
  }

  // ---------------------------------------------------------------------
  // Durations
  // ---------------------------------------------------------------------

  /** A clock that never goes backwards. */
  ghost predicate Monotonic(clock: nat -> Int64) {
    forall i: nat, j: nat :: i <= j ==> clock(i) <= clock(j)
  }

  /** The recorded duration is the difference of the two clock readings, the
      one taken at start and the one taken at stop, provided the clock is
      monotonic and less than 2^63 ns (about 292 years) passed. */
  lemma StartStopElapsed<C>(w: World, id: ObsId, name: string, reg: Registry<C>, ctx: C, later: World)
    requires reg.isEnabled(name)
    requires Monotonic(w.clock)
    requires later.clock == w.clock && later.taken > w.taken
    requires w.clock(later.taken) - w.clock(w.taken) < TWO_63
    ensures var o := Start(w, id, name, reg, ctx).0.value;
      var d := w.clock(later.taken) - w.clock(w.taken);
      && d >= 0
      && Stop(later, o).log[|later.log|] == Recorded(Record(name, d))
  {
  }

  /** A second `stop` records a second data point, measured from the same
      start time with the next clock reading. */
  lemma SecondStopRecordsAgain<C>(w: World, o: Observation<C>)
    ensures var w1 := Stop(w, o);
      var w2 := Stop(w1, o);
      && w2.taken == w.taken + 2
      && w2.log[|w1.log|] == Recorded(Record(o.name, Wrap64(w.clock(w.taken + 1) - o.startTime)))
      && w1.log[|w.log|] == Recorded(Record(o.name, Wrap64(w.clock(w.taken) - o.startTime)))
      && w2.log[..|w1.log|] == w1.log
  {
  }

  /** One handler supporting every context, a clock that reads 0 at start
      and 150 ms at stop: the handler sees start, then the timer named after
      the observation records 150 ms, then the handler's `onStop` receives
      the same 150 ms. */
  lemma SingleHandlerTiming<C>(ctx: C)
    ensures
      var w := World(i => if i == 0 then 0 else 150_000_000, 0, [], map[]);
      var h := Leaf(7, (c: C) => true, false, false);
      var reg := Registry((n: string) => true, [h]);
      var (o, w1) := Start(w, 1, "svc.call", reg, ctx);
      o.Some? &&
      Stop(w1, o.value).log == [
        Notified(Call(7, 1, OnStart)),
        Recorded(Record("svc.call", 150_000_000)),
        Notified(Call(7, 1, OnStop("svc.call", 150_000_000)))]
  {
    var w := World(i => if i == 0 then 0 else 150_000_000, 0, [], map[]);
    var h := Leaf(7, (c: C) => true, false, false);
    var reg := Registry((n: string) => true, [h]);
    var (o, w1) := Start(w, 1, "svc.call", reg, ctx);
    AllApplicableSingle([h], ctx, 0, 0);
    FanoutLeaves(o.value.handlers, 1, ctx, OnStart);
    FanoutLeaves(o.value.handlers, 1, ctx, OnStop("svc.call", 150_000_000));
  }

  // ---------------------------------------------------------------------
  // The no-op observation
  // ---------------------------------------------------------------------

  datatype Exception = NullPointerException

  /** `stop` called on whatever `start` returned, as the code is written:
      the no-op value is null, so the call throws. */
  function StopAsWritten<C>(w: World, o: Option<Observation<C>>): (r: Result<World, Exception>)
    ensures o.None? <==> r.Failure?
    ensures o.Some? ==> r == Success(Stop(w, o.value))
  {
    match o
    case None => Failure(NullPointerException)
    case Some(obs) => Success(Stop(w, obs))
  }

  /** For a disabled name, starting and then stopping throws instead of
      doing nothing. */
  lemma DisabledStopThrows<C>(w: World, id: ObsId, name: string, reg: Registry<C>, ctx: C)
    requires !reg.isEnabled(name)
    ensures var (o, w1) := Start(w, id, name, reg, ctx);
      StopAsWritten(w1, o) == Failure(NullPointerException)
  {
  }

  /** `error` called on whatever `start` returned, as the code is written:
      on the null no-op value the call throws. */
  function ErrorAsWritten<C>(w: World, o: Option<Observation<C>>, t: Throwable): (r: Result<World, Exception>)
    ensures o.None? <==> r.Failure?
    ensures o.Some? ==> r == Success(Error(w, o.value, t))
  {
    match o
    case None => Failure(NullPointerException)
    case Some(obs) => Success(Error(w, obs, t))
  }

  /** For a disabled name, starting and then reporting an error throws
      instead of doing nothing. */
  lemma DisabledErrorThrows<C>(w: World, id: ObsId, name: string, reg: Registry<C>, ctx: C, t: Throwable)
    requires !reg.isEnabled(name)
    ensures var (o, w1) := Start(w, id, name, reg, ctx);
      ErrorAsWritten(w1, o, t) == Failure(NullPointerException)
  {
  }

  /** `error` on the result of `start`, with the no-op value absorbing it. */
  function ErrorOrNoOp<C>(w: World, o: Option<Observation<C>>, t: Throwable): (r: World)
    ensures o.None? ==> r == w
    ensures o.Some? ==> r == Error(w, o.value, t)
  {
    match o
    case None => w
    case Some(obs) => Error(w, obs, t)
  }

  /** `stop` on the result of `start`, with the no-op value absorbing it. */
  function StopOrNoOp<C>(w: World, o: Option<Observation<C>>): (r: World)
    ensures o.None? ==> r == w
    ensures o.Some? ==> r == Stop(w, o.value)
  {
    match o
    case None => w
    case Some(obs) => Stop(w, obs)
  }

  /** For a disabled name the whole start/error/stop lifecycle reads no
      clock, notifies no handler and records nothing. */
  lemma DisabledLifecycleIsSilent<C>(w: World, id: ObsId, name: string, reg: Registry<C>, ctx: C, t: Throwable)
    requires !reg.isEnabled(name)
    ensures var (o, w1) := Start(w, id, name, reg, ctx);
      StopOrNoOp(ErrorOrNoOp(w1, o, t), o) == w
  {
  }
}

=== FILE: scope.dfy ===
/**
  Scopes: making an observation the current one for a thread.

  Each thread has its own slot. A scope saves the slot of the thread that
  opens it and overwrites it. Closing writes the saved value back into the
  slot of the thread that closes it, unconditionally, whatever the slot
  holds by then.
*/
module Scopes {
  import opened Wrappers
  import opened Handlers
  import opened Observations

  /** The current observation of thread `t`, as the thread-local reads it. */
  function Current(slots: Slots, t: ThreadId): (r: Option<ObsId>)
    ensures t !in slots ==> r == None
    ensures t in slots ==> r == slots[t]
  {
    if t in slots then slots[t] else None
  }

  /** An open scope: the observation it made current and the value of the
      slot just before. */
  datatype Scope<!C> = Scope(current: Observation<C>, previous: Option<ObsId>)

  /** Write `v` into the slot of thread `t`, logging the write. */
  function SetSlot(w: World, t: ThreadId, v: Option<ObsId>): (r: World)
    ensures r.clock == w.clock && r.taken == w.taken
    ensures r.log == w.log + [SlotSet(t, v)]
    ensures Current(r.slots, t) == v
    ensures forall u :: u != t ==> Current(r.slots, u) == Current(w.slots, u)
  {
    w.(slots := w.slots[t := v], log := w.log + [SlotSet(t, v)])
  }

  /** The `Scope` constructor, run on thread `t`: save the slot, then make
      `o` current. */
  function OpenScope<C>(w: World, o: Observation<C>, t: ThreadId): (r: (Scope<C>, World))
    ensures r.0.current == o && r.0.previous == Current(w.slots, t)
    ensures r.1 == SetSlot(w, t, Some(o.id))
  {
    (Scope(o, Current(w.slots, t)), SetSlot(w, t, Some(o.id)))
  }

  /** `makeCurrent`, called on thread `t`: `onScopeOpened` reaches the kept
      handlers first, and only then is the scope opened. */
  function MakeCurrent<C>(w: World, o: Observation<C>, t: ThreadId): (r: (Scope<C>, World))
    ensures r.0.current == o && r.0.previous == Current(w.slots, t)
    ensures r.1.clock == w.clock && r.1.taken == w.taken
    ensures Current(r.1.slots, t) == Some(o.id)
    ensures forall u :: u != t ==> Current(r.1.slots, u) == Current(w.slots, u)
    ensures r.1.log == w.log + Announce(Fanout(o.handlers, o.id, o.context, OnScopeOpened)) + [SlotSet(t, Some(o.id))]
  {
    var w1 := w.(log := w.log + Announce(Fanout(o.handlers, o.id, o.context, OnScopeOpened)));
    OpenScope(w1, o, t)
  }

  /** `Scope.close`, called on thread `t`: `onScopeClosed` reaches the kept
      handlers of the scope's observation, then the saved value is written
      back into the slot of `t`. */
  function Close<C>(w: World, s: Scope<C>, t: ThreadId): (r: World)
    ensures r.clock == w.clock && r.taken == w.taken
    ensures Current(r.slots, t) == s.previous
    ensures forall u :: u != t ==> Current(r.slots, u) == Current(w.slots, u)
    ensures r.log == w.log + Announce(Fanout(s.current.handlers, s.current.id, s.current.context, OnScopeClosed)) + [SlotSet(t, s.previous)]
  {
    var o := s.current;
    var w1 := w.(log := w.log + Announce(Fanout(o.handlers, o.id, o.context, OnScopeClosed)));
    SetSlot(w1, t, s.previous)
  }

  /** With concrete kept handlers, `makeCurrent` calls `onScopeOpened` once
      on each kept handler that overrides it, in order, and on no other, and
      only then writes the slot. */
  lemma MakeCurrentNotifiesOverriding<C>(w: World, o: Observation<C>, t: ThreadId)
    requires forall k :: 0 <= k < |o.handlers| ==> o.handlers[k].Leaf?
    ensures MakeCurrent(w, o, t).1.log ==
      w.log + Announce(CallsFor(Ids(Acting(o.handlers, OnScopeOpened)), o.id, OnScopeOpened)) + [SlotSet(t, Some(o.id))]
  {
    FanoutLeavesScope(o.handlers, o.id, o.context, OnScopeOpened);
  }

  /** With concrete kept handlers, `close` calls `onScopeClosed` once on each
      kept handler that overrides it, in order, and on no other, and only
      then restores the slot. */
  lemma CloseNotifiesOverriding<C>(w: World, s: Scope<C>, t: ThreadId)
    requires forall k :: 0 <= k < |s.current.handlers| ==> s.current.handlers[k].Leaf?
    ensures Close(w, s, t).log ==
      w.log + Announce(CallsFor(Ids(Acting(s.current.handlers, OnScopeClosed)), s.current.id, OnScopeClosed))
            + [SlotSet(t, s.previous)]
  {
    FanoutLeavesScope(s.current.handlers, s.current.id, s.current.context, OnScopeClosed);
  }

  // ---------------------------------------------------------------------
  // Properly nested scopes
  // ---------------------------------------------------------------------

  /** A try-with-resources block on one thread: make `obs` current, run the
      nested blocks in order, close the scope. */
  datatype Block<!C> = Block(obs: Observation<C>, body: seq<Block<C>>)

  function RunBlock<C>(w: World, t: ThreadId, b: Block<C>): World
    decreases b
  {
    var (s, w1) := MakeCurrent(w, b.obs, t);
    Close(RunBody(w1, t, b.body), s, t)
  }

  function RunBody<C>(w: World, t: ThreadId, bs: seq<Block<C>>): World
    decreases bs
  {
    if bs == [] then w else RunBody(RunBlock(w, t, bs[0]), t, bs[1..])
  }

  /** Every thread's current observation is the same after a properly nested
      block as before it: on the running thread because each scope restores
      what it saved, on any other thread because it is never written. The
      clock is not read. */
  lemma {:induction false} NestedScopesRestore<C>(w: World, t: ThreadId, b: Block<C>)
    ensures forall u :: Current(RunBlock(w, t, b).slots, u) == Current(w.slots, u)
    ensures RunBlock(w, t, b).taken == w.taken && RunBlock(w, t, b).clock == w.clock
    decreases b, 1
  {
    var (s, w1) := MakeCurrent(w, b.obs, t);
    NestedBodyRestores(w1, t, b.body);
  }

  lemma {:induction false} NestedBodyRestores<C>(w: World, t: ThreadId, bs: seq<Block<C>>)
    ensures forall u :: Current(RunBody(w, t, bs).slots, u) == Current(w.slots, u)
    ensures RunBody(w, t, bs).taken == w.taken && RunBody(w, t, bs).clock == w.clock
    decreases bs, 0
  {
    if bs != [] {
      NestedScopesRestore(w, t, bs[0]);
      NestedBodyRestores(RunBlock(w, t, bs[0]), t, bs[1..]);
    }
  }

  /** Inside a block, once its nested blocks have all closed, the block's own
      observation is current again: the innermost open scope wins. */
  lemma InnermostIsCurrent<C>(w: World, t: ThreadId, b: Block<C>)
    ensures var (s, w1) := MakeCurrent(w, b.obs, t);
      Current(RunBody(w1, t, b.body).slots, t) == Some(b.obs.id)
  {
    var (s, w1) := MakeCurrent(w, b.obs, t);
    NestedBodyRestores(w1, t, b.body);
  }

  // ---------------------------------------------------------------------
  // Closing out of order or on another thread
  // ---------------------------------------------------------------------

  /** Closing two scopes in the order they were opened leaves the first
      observation current, instead of what was current before both. */
  lemma OutOfOrderCloseLeavesStale<C>(w: World, o1: Observation<C>, o2: Observation<C>, t: ThreadId)
    ensures var (s1, w1) := MakeCurrent(w, o1, t);
      var (s2, w2) := MakeCurrent(w1, o2, t);
      Current(Close(Close(w2, s1, t), s2, t).slots, t) == Some(o1.id)
  {
  }

  /** A scope opened on thread `t` and closed on thread `u` leaves `o` current
      on `t`, and writes the value saved from `t` into the slot of `u`. */
  lemma CloseOnOtherThread<C>(w: World, o: Observation<C>, t: ThreadId, u: ThreadId)
    requires t != u
    ensures var (s, w1) := MakeCurrent(w, o, t);
      var w2 := Close(w1, s, u);
      && Current(w2.slots, t) == Some(o.id)
      && Current(w2.slots, u) == Current(w.slots, t)
  {
  }

  /** An observation started anywhere and made current on thread `b` only is
      current on `b` while its scope is open, and thread `a` never sees it;
      after the close and the stop both threads read what they read before. */
  lemma CurrentOnlyOnOpeningThread<C>(w: World, o: Observation<C>, a: ThreadId, b: ThreadId)
    requires a != b
    ensures var (s, w1) := MakeCurrent(w, o, b);
      var w2 := Stop(Close(w1, s, b), o);
      && Current(w1.slots, b) == Some(o.id)
      && Current(w1.slots, a) == Current(w.slots, a)
      && Current(w2.slots, a) == Current(w.slots, a)
      && Current(w2.slots, b) == Current(w.slots, b)
  {
  }
}

=== FILE: wrappers.dfy ===
/** Absent-or-present values and success-or-failure results, used where the
    Java code returns a nullable reference or may throw. */
module Wrappers {

  /** A Java reference that may be null: `None` stands for null. */
  datatype Option<+T> = None | Some(value: T)

  /** The outcome of a call that either returns normally or throws. */
  datatype Result<+R, +E> = Success(value: R) | Failure(error: E)
}
